=== FILE: README.md ===
# cloudinary.js in Dafny

A model of the browser-side Cloudinary client `cloudinary.js`. The file does four small things, and each is modelled here.

- **Transformation-option encoder** (`parametrizeIfExists`, `stringify`). An options object becomes a comma-separated list of `code_value` tokens. The encoder walks a fixed 19-entry option table in table order. Each entry has an option name, an optional short code and an optional value converter. The converters are `faceDetection`, which maps to `face`/`faces`/nothing, and `radius`, which maps -1 to `max`.
- **URL builders** (`urlRes`, `urlApi`). Each concatenates:
  - a host chosen by a scheme flag,
  - the cloud name,
  - `image/upload/`,
  - an optional segment followed by `/`,
  - a resource name.
- **Public calls** (`Cloudinary` constructor, `getImage`, `postImage`). Each checks its required arguments before building anything.
- **Upload rendezvous** (`onFileReady` / `makeSend`). Two flags decide which of two events, "file read" or "send requested", performs the send.

Modules:

| module | file | contents |
|---|---|---|
| `Results` | results.dfy | `Option` (a value or JavaScript `undefined`) and `Result` (a return or a throw) |
| `Strings` | strings.dfy | split at the first separator, join with a separator, and the inverse of the join |
| `Decimal` | decimal.dfy | the decimal form of an integer (`value + ''`) and its parser |
| `Transform` | transform.dfy | the option table, the converters, the token function, the `stringify` loop and its reference encoding `Encode`, a decoder that inverts the encoder, and the property lookup as written |
| `TransformExamples` | transform.dfy | concrete encodings |
| `Urls` | urls.dfy | `urlRes`, `urlApi` and the parsers that invert them |
| `Client` | client.dfy | the constructor, `getImage` and `postImage`, with thrown errors as `Failure` |
| `ClientExamples` | client.dfy | a concrete download URL |
| `Upload` | upload.dfy | the request's rendezvous state, its two event handlers, a runner over event sequences, and an independent account of what gets sent |

The options argument is `OptionsArg`:
- `Undefined`;
- `NotAnObject` (null or a primitive);
- `Obj(map<string, Value>)`, with `Value = Num(int) | Str(string)`.

### Three facts about the code worth knowing

- No flag of the rendezvous is ever reset. So `makeSend` after the file is in calls `send` again, and once the request is waiting every later `onFileReady` calls `send`. The model follows the code: see `Upload.NoResendGuard` and `Upload.EveryLateFileSends`.
- The documentation of `getImage` lists `rounded` and `default_image` (lines 202-204), but neither is a name in the option table, so `{rounded: -1}` is dropped and gives `upload//cat.png`. The model follows the table: see `Transform.RoundedIgnored` and `Client.UnknownOptionsDoubleSlash`.
- Line 257 calls `urlApi(this.name)` with no scheme flag, so the upload URL is http whatever `isHttps` says. This is logged under Findings.

## Model

| member | source | states |
|---|---|---|
| Decimal.IntToString | cloudinary.js:65 | `value + ''` of an integer starts with `-` exactly when the integer is negative; the rest is a non-empty run of digits with no leading zero |
| Decimal.IntRoundTrip | cloudinary.js:65 | the rendered form of any integer parses back to that integer with the independent parser `ParseInt` |
| Decimal.IntToStringInjective | cloudinary.js:65 | distinct integers have distinct decimal forms |
| Strings.FieldsOfJoin | cloudinary.js:116-127 | splitting the join of a non-empty list of comma-free tokens at commas gives the tokens back (the empty list joins to `''`, which splits to one empty field) |
| Strings.JoinWellFormed | cloudinary.js:116-127 | joining non-empty, comma-free tokens never gives a leading, trailing or doubled comma |
| Transform.ParametrizeIfExists | cloudinary.js:53-73 | no token when the option is absent or its converter returns `''`, and only then; a token always starts with the entry's code and `_` |
| Transform.TokensInTableOrder | cloudinary.js:116-127 | the output has exactly one token per emitting entry, token j comes from the j-th emitting entry, and positions strictly increase (table order whatever the key order) |
| Transform.StringifyEntries | cloudinary.js:116-127 | the loop with `sawOne` produces the comma-join of the table-order tokens |
| Transform.Stringify | cloudinary.js:75-128 | no query (undefined) exactly when the argument is not an object; otherwise the comma-joined tokens of the table |
| Transform.UnknownKeysIgnored | cloudinary.js:79-121 | adding or changing a key that is not in the table leaves the encoding unchanged |
| Transform.TokensIgnoreOtherKeys | cloudinary.js:118-121 | entries not named by a key emit the same tokens whatever the key maps to |
| Transform.AtMostNineteenTokens | cloudinary.js:79-114 | an encoding has at most 19 tokens |
| Transform.NamesDistinct | cloudinary.js:79-114 | no two table entries share an option name |
| Transform.TokensWithoutOptions | cloudinary.js:54-56 | entries whose options are all absent emit nothing |
| Transform.OnlyUnknownKeys | cloudinary.js:116-127 | an object with no table option encodes as `''`, not as undefined |
| Transform.EncodeWellFormed | cloudinary.js:116-127 | the encoding of comma-free options never starts or ends with a comma and never holds two commas in a row |
| Transform.DocumentedNamesNotInTable | cloudinary.js:79-114 | `rounded` and `default_image`, documented as options at lines 202-204, are not names in the option table |
| Transform.RoundedIgnored | cloudinary.js:202 | `{rounded: -1}`, documented as giving a circular image, encodes as `''`: the option is silently dropped |
| Transform.QueryRoundTrip | cloudinary.js:68-127 | splitting the encoding at commas and each token at its first `_` gives back each emitted option's code and value in table order, when no string value holds a comma |
| Transform.ShortCodes | cloudinary.js:79-114 | width/height/crop use `w`/`h`/`c`; `x` and `y` have no short code and use their names; `faceDetection` and `gravity` both use `g` |
| Transform.FaceDetectionConverter | cloudinary.js:85-93 | faceDetection below 1 emits nothing, 1 emits `g_face`, above 1 emits `g_faces` |
| Transform.RadiusConverter | cloudinary.js:94-101 | radius -1 emits `r_max`; any other integer n emits `r_` and n's decimal form, including `r_0` and `r_-5` |
| Transform.DroppedOnlyByConverter | cloudinary.js:61-66 | a present option is dropped only when its converter returns `''`; a plain option emits `<code>_<value>`, even when the value is `''` |
| Transform.AsWrittenThrowsIffOptionPresent | cloudinary.js:58 | with the lookup as written, the loop throws exactly when some table option is present |
| Transform.AsWrittenThrowsOnKnownOption | cloudinary.js:58 | as written, `stringify` throws for every object holding a table option; the intended encoding is non-empty whenever that option's entry emits a token (`{faceDetection: 0}` throws as written yet encodes as `''`) |
| TransformExamples.WidthCropEncoding | cloudinary.js:79-127 | `{width: 100, crop: 'fill'}` encodes as `w_100,c_fill` |
| TransformExamples.TwoGravityTokens | cloudinary.js:85-103 | `{faceDetection: 1, gravity: 'south'}` encodes as `g_face,g_south`: two `g` tokens, faceDetection's first |
| Urls.UrlRes | cloudinary.js:35-42 | the URL starts with the scheme's resource host, the cloud name and `image/upload/`, and ends with the resource name |
| Urls.UrlApi | cloudinary.js:26-33 | the URL starts with the scheme's API host, the cloud name and `image/upload/`, and ends with the resource name when one is given |
| Urls.ParsePartsOf | cloudinary.js:26-42 | for any two hosts told apart by their fifth character, host + name + `/image/upload/` + optional segment + last part parses back to the scheme, name, segment and last part, when the name and segment hold no slash and, without a segment, neither does the last part |
| Urls.ResUrlRoundTrip | cloudinary.js:35-42 | a resource URL parses back to its scheme, cloud name, parameter segment and resource name, when those hold no separating slash |
| Urls.ApiUrlRoundTrip | cloudinary.js:26-33 | an API URL parses back to its scheme, cloud name, action and resource when the name and action hold no slash; an absent resource reads as empty |
| Urls.EmptyParamsDoubleSlash | cloudinary.js:40 | defined but empty parameters put `upload//` in the URL |
| Urls.NoParamsNoSegment | cloudinary.js:40 | undefined parameters add no segment |
| Client.NewClient | cloudinary.js:167-176 | construction fails exactly when the cloud name or the API key is missing; the secret is optional and is kept as given |
| Client.GetImage | cloudinary.js:218-225 | fails exactly when the image name is missing; otherwise the URL has the chosen resource host and cloud name and ends with the image name |
| Client.NoOptionsNoSegment | cloudinary.js:218-225 | without an options object the image name follows `image/upload/` directly |
| Client.UnknownOptionsDoubleSlash | cloudinary.js:218-225 | an options object with no table option gives a URL containing `upload//` |
| Client.GetImageReadsBack | cloudinary.js:218-225 | when the cloud name and the encoding hold no slash and no string option value holds a comma, a `getImage` URL parses back to the scheme, cloud name and image name, and its parameter segment decodes to the options' codes and values |
| ClientExamples.DemoCatUrl | cloudinary.js:218-224 | cloud `demo`, image `cat.png` over http with width 100 and crop fill give `http://res.cloudinary.com/demo/image/upload/w_100,c_fill/cat.png` |
| Client.PostUrlAsWritten | cloudinary.js:257 | the upload URL as written always starts with the http API host |
| Client.PostUrlIgnoresHttps | cloudinary.js:257 | as written, asking for https still gives an `http://` URL, which differs from the corrected one |
| Client.PostUrl | cloudinary.js:257 | the corrected upload URL starts with the API host of the requested scheme |
| Client.PostUrlHonoursHttps | cloudinary.js:257 | the corrected URL starts with `https://` exactly when https is asked for; when the cloud name holds no slash it parses back to that name with no action or resource |
| Client.PostImage | cloudinary.js:249-257 | the image path is checked first, then the secret; fails exactly when either is missing, with the error of the first missing one; on success the URL starts with the requested scheme's API host, the cloud name and `image/upload/`, and the request is in the fresh state (both flags down, nothing buffered or sent) |
| Client.PostImageAsWritten | cloudinary.js:249-257 | the same checks in the same order with the same errors, then a fresh request whose URL starts with the http API host, the cloud name and `image/upload/` (only the URL is as written) |
| Client.PostImageDiffersOnlyOnHttps | cloudinary.js:257 | the written and corrected `postImage` are equal for http; for https they fail on the same inputs with the same error, and on success carry the same request state but different URLs |
| Client.ClientWithSecretCanUpload | cloudinary.js:249-255 | a client built with a secret passes both `postImage` checks for any path |
| Client.ClientWithoutSecret | cloudinary.js:253-255 | a client built without a secret can still download, but every upload fails |
| Upload.Fresh | cloudinary.js:261-262 | a new request has both flags down, nothing buffered, and has sent nothing |
| Upload.OnFileReady | cloudinary.js:264-272 | if the request is waiting, one send carrying the data; otherwise the data is buffered and the file flag raised; the log only grows; validity is kept |
| Upload.MakeSend | cloudinary.js:282-289 | if the file is ready, one send carrying the buffered data; otherwise the request flag is raised; the log only grows; validity is kept |
| Upload.RunKeepsValid | cloudinary.js:261-289 | over any event sequence the flags are never both up, and the send log only grows |
| Upload.RequestLatched | cloudinary.js:264-268 | once the request waits, every later file event sends its own data |
| Upload.FileLatched | cloudinary.js:282-286 | once a file is buffered, every later `makeSend` sends the most recently read data |
| Upload.RunMatchesExpected | cloudinary.js:261-289 | for any event sequence, a fresh request sends exactly what the independent account `ExpectedSends` says |
| Upload.EitherOrderSendsOnce | cloudinary.js:261-289 | one file event and one `makeSend`, in either order, send the data exactly once |
| Upload.OneEventSendsNothing | cloudinary.js:261-289 | after only one of the two events nothing has been sent |
| Upload.NoResendGuard | cloudinary.js:282-289 | after the file is in, a second `makeSend` calls `send` again with the same data |
| Upload.EveryLateFileSends | cloudinary.js:264-268 | once the request waits, two file events make two `send` calls |
| Upload.SendsAfterFirstEvent | cloudinary.js:261-289 | nothing is ever sent on the first event: n events send at most n - 1 times |

## Left out

- `readFile` and the FileReader callbacks (cloudinary.js:131-153) are browser file I/O. The model takes the read data as the argument of the file event.
- The request object itself is a foreign browser API: `new XMLHttpRequest`, `open`, `send` and `responseType`. The model keeps only the flag logic around it and logs each call to `send` with the file data it carries.
- The upload payload (`stringifyPost(options, file, this.pass)`, line 278) calls a function the file never defines, with names it never declares. `filepath` at line 152 is also undeclared. As written, `postImage` would throw at those lines once its checks pass. The model returns the request as evidently intended and does not invent the payload.
- `isHttps` also reaches `xhr.open` as its third (async) argument. That argument is not modelled.
- `uploadOptions` of `postImage` is never read by the code.
- `returnValueIfExists` (cloudinary.js:44-51) is unused by the rest of the file.
- Transform.Convert: JavaScript's loose coercion is not modelled.
  - In the source, `"1" == 1`, `"0" < 1` and `"-1" == -1` hold.
  - The model treats a string handed to a converter as non-numeric. faceDetection with any string gives `faces`. radius with a string gives the string, so `''` is dropped.
- Transform.Render: only integer numbers are modelled; floats are not.
  - The documented float widths and heights (scaling by a factor) are out.
  - So is JavaScript's number-to-string formatting for floats, for magnitudes of 1e21 and above, and beyond 2^53.
  - Other JavaScript values (booleans, objects, null) as option values are out too.
- Client.NewClient, Client.GetImage, Client.PostImage: the cloud name, key, secret, image name and image path are modelled as strings or absent. Other JavaScript values (null, numbers) pass the source's `=== undefined` checks (lines 168, 219, 250) and are not modelled; for instance `getImage(null)` builds a URL ending in `null` rather than throwing.
- The error messages thrown by the public calls are reduced to one constructor per cause.
- The property lookup is modelled as "value of the own property" (map lookup), not as written. The written behaviour is kept separately; see Findings.
- Console logging, the abort and error callbacks, and the `window` module wrapper (cloudinary.js:16, 142-150, 296) are left out.
- Upload.NoResendGuard: the log records calls to `send`, not uploads. A real XMLHttpRequest refuses a second `send()` with an InvalidStateError, so the missing guard leads to that exception rather than a second upload. The same holds for Upload.EveryLateFileSends.

## Findings

| source | as written | input that shows it | evidently intended | confidence | as-written member | corrected member |
|---|---|---|---|---|---|---|
| cloudinary.js:58 | `obj.getOwnPropertyDescriptor(propName)` is called on the options object, which has no such method, so a present option throws a TypeError | `getImage('cat.png', false, {width: 100})` | `Object.getOwnPropertyDescriptor(obj, propName)`: the option's own value, so the token `w_100` is emitted | high (not executed) | Transform.AsWrittenThrowsOnKnownOption | Transform.Stringify |
| cloudinary.js:257 | `urlApi(this.name)` passes no scheme flag, so the upload URL is always `http://api.cloudinary.com/...`; `isHttps` reaches only `xhr.open`'s async argument (line 280). The defect is latent: the URL is used only at line 280, and before that line 276 calls `readFile`, which throws a ReferenceError on the undeclared `filepath` (line 152) | none as the file stands; once the names at lines 152 and 278 are defined, `postImage(path, true)` on a client with a secret would open an http URL | `urlApi(this.name, undefined, undefined, isHttps)`: https when asked for | low: latent, hidden behind the errors at lines 152 and 278 (not executed) | Client.PostUrlIgnoresHttps | Client.PostUrlHonoursHttps |

=== FILE: client.dfy ===
/**
 The public face of cloudinary.js: the `Cloudinary` constructor, `getImage`
 and `postImage`. Each checks its required arguments before building
 anything; a thrown `Error` becomes a `Failure`.
 */
module Client {
  import opened Results
  import opened Transform
  import opened Urls
  import Upload

  /** A client object built by `new Cloudinary(...)`: the cloud name, the API key and the optional API secret. */
  datatype Cloudinary = Cloudinary(name: string, key: string, pass: Option<string>)

  /** The errors the public calls throw, one per missing argument. */
  datatype Error = MissingCredentials | MissingImageName | MissingImagePath | MissingSecret

  /** `new Cloudinary(cloudName, apiKey, apiSecret)`: the secret alone may be missing. */
  function NewClient(cloudName: Option<string>, apiKey: Option<string>, apiSecret: Option<string>): (r: Result<Cloudinary, Error>)
    ensures r.Success? <==> cloudName.Some? && apiKey.Some?
    ensures r.Failure? ==> r.error == MissingCredentials
    ensures r.Success? ==> r.value.name == cloudName.value && r.value.key == apiKey.value && r.value.pass == apiSecret
  {
    if cloudName.None? || apiKey.None? then Failure(MissingCredentials)
    else Success(Cloudinary(cloudName.value, apiKey.value, apiSecret))
  }

  /**
   `client.getImage(imageName, https, options)`: the download URL of the
   image, with the options encoded as the parameter segment.
   */
  function GetImage(c: Cloudinary, imageName: Option<string>, https: bool, options: OptionsArg): (r: Result<string, Error>)
    ensures r.Failure? <==> imageName.None?
    ensures r.Failure? ==> r.error == MissingImageName
    ensures r.Success? ==> ResHost(https) + c.name + "/" + UploadPath <= r.value
    ensures r.Success? ==> |r.value| >= |imageName.value| && r.value[|r.value| - |imageName.value|..] == imageName.value
  {
    if imageName.None? then Failure(MissingImageName)
    else Success(UrlRes(c.name, Encode(options), imageName.value, https))
  }

  /**
   Without an options object the URL has no parameter segment: the image
   name follows `image/upload/` directly.
   */
  lemma NoOptionsNoSegment(c: Cloudinary, imageName: string, https: bool, options: OptionsArg)
    requires !options.Obj?
    ensures GetImage(c, Some(imageName), https, options)
      == Success(ResHost(https) + c.name + "/image/upload/" + imageName)
  {
    NoParamsNoSegment(c.name, imageName, https);
  }

  /**
   An options object with no recognised option still yields a (empty)
   parameter segment, so the URL holds `upload//`.
   */
  lemma UnknownOptionsDoubleSlash(c: Cloudinary, imageName: string, https: bool, props: map<string, Value>)
    requires forall k :: k in props ==> NotInTable(k)
    ensures GetImage(c, Some(imageName), https, Obj(props))
      == Success(ResHost(https) + c.name + "/image/upload//" + imageName)
  {
    OnlyUnknownKeys(props);
    EmptyParamsDoubleSlash(c.name, imageName, https);
  }

  /**
   Reading a `getImage` URL back gives the scheme, the cloud name, the image
   name and a parameter segment whose comma-separated tokens decode to the
   recognised options in table order, each with its code and value.
   */
  lemma GetImageReadsBack(c: Cloudinary, imageName: string, https: bool, props: map<string, Value>)
    requires '/' !in c.name
    requires '/' !in Encode(Obj(props)).value
    requires CommaFree(props)
    ensures var r := GetImage(c, Some(imageName), https, Obj(props));
      && r.Success?
      && var u := ParseResUrl(r.value);
      && u.Some?
      && u.value.https == https && u.value.name == c.name && u.value.resource == imageName
      && u.value.params.Some?
      && DecodeQuery(u.value.params.value) == Pairs(props, Table, |Table|)
  {
    ResUrlRoundTrip(c.name, Encode(Obj(props)), imageName, https);
    QueryRoundTrip(props);
  }

  // ----- postImage -----

  /** A request ready to fire: where it will POST and the state of its rendezvous. */
  datatype Request = Request(url: string, xhr: Upload.Xhr)

  /**
   The URL line 257 builds: `urlApi(this.name)` passes no scheme flag, so the
   upload always goes over plain http whatever `isHttps` says.
   */
  function PostUrlAsWritten(name: string, isHttps: bool): (url: string)
    ensures ApiHttpHost + name + "/" + UploadPath <= url
  {
    UrlApi(name, None, None, false)
  }

  /** The upload URL with the scheme the caller asked for. */
  function PostUrl(name: string, isHttps: bool): (url: string)
    ensures ApiHost(isHttps) + name + "/" + UploadPath <= url
  {
    UrlApi(name, None, None, isHttps)
  }

  /** As written, asking for https still yields an http upload URL. */
  lemma PostUrlIgnoresHttps(name: string)
    ensures "http://" <= PostUrlAsWritten(name, true)
    ensures !("https://" <= PostUrlAsWritten(name, true))
    ensures PostUrlAsWritten(name, true) != PostUrl(name, true)
  {
    var u := PostUrlAsWritten(name, true);
    assert u[..7] == ApiHttpHost[..7];
    assert u[4] == ApiHttpHost[4] == ':';
    var v := PostUrl(name, true);
    assert v[4] == ApiHttpsHost[4] == 's';
  }

  /** The corrected URL is https exactly when the caller asks for it, and names the client's cloud. */
  lemma PostUrlHonoursHttps(name: string, isHttps: bool)
    requires '/' !in name
    ensures "https://" <= PostUrl(name, isHttps) <==> isHttps
    ensures ParseApiUrl(PostUrl(name, isHttps)) == Some(ApiUrl(isHttps, name, None, ""))
  {
    var u := PostUrl(name, isHttps);
    if isHttps {
      assert u[..8] == ApiHttpsHost[..8];
    } else {
      assert u[4] == ApiHttpHost[4] == ':';
    }
    ApiUrlRoundTrip(name, None, None, isHttps);
  }

  /**
   `client.postImage(imagePath, isHttps)`: the image path is checked first,
   then the secret; on success a request with a fresh rendezvous state. It
   uses the corrected upload URL.
   */
  function PostImage(c: Cloudinary, imagePath: Option<string>, isHttps: bool): (r: Result<Request, Error>)
    ensures r.Failure? <==> imagePath.None? || c.pass.None?
    ensures imagePath.None? ==> r == Failure(MissingImagePath)
    ensures imagePath.Some? && c.pass.None? ==> r == Failure(MissingSecret)
    ensures r.Success? ==> ApiHost(isHttps) + c.name + "/" + UploadPath <= r.value.url
    ensures r.Success? ==> r.value.xhr == Upload.Fresh()
    ensures r.Success? ==> ("https://" <= r.value.url <==> isHttps)
  {
    if imagePath.None? then Failure(MissingImagePath)
    else if c.pass.None? then Failure(MissingSecret)
    else
      var url := PostUrl(c.name, isHttps);
      assert "https://" <= url <==> isHttps by {
        if isHttps {
          assert url[..8] == ApiHttpsHost[..8];
        } else {
          assert url[4] == ApiHttpHost[4];
        }
      }
      Success(Request(url, Upload.Fresh()))
  }

  /**
   The request with the URL line 257 builds: the same checks, then the
   http-only URL. Only the URL is as written; the source itself would throw
   before returning (line 152), which is not modelled.
   */
  function PostImageAsWritten(c: Cloudinary, imagePath: Option<string>, isHttps: bool): (r: Result<Request, Error>)
    ensures r.Failure? <==> imagePath.None? || c.pass.None?
    ensures imagePath.None? ==> r == Failure(MissingImagePath)
    ensures imagePath.Some? && c.pass.None? ==> r == Failure(MissingSecret)
    ensures r.Success? ==> ApiHttpHost + c.name + "/" + UploadPath <= r.value.url
    ensures r.Success? ==> r.value.xhr == Upload.Fresh()
  {
    if imagePath.None? then Failure(MissingImagePath)
    else if c.pass.None? then Failure(MissingSecret)
    else
      var url := PostUrlAsWritten(c.name, isHttps);
      assert url[..7] == ApiHttpHost[..7];
      Success(Request(url, Upload.Fresh()))
  }

  /** The two versions agree on everything except the URL of an https upload. */
  lemma PostImageDiffersOnlyOnHttps(c: Cloudinary, imagePath: Option<string>)
    ensures PostImage(c, imagePath, false) == PostImageAsWritten(c, imagePath, false)
    ensures PostImage(c, imagePath, true).Failure? == PostImageAsWritten(c, imagePath, true).Failure?
    ensures PostImage(c, imagePath, true).Failure? ==>
      PostImage(c, imagePath, true) == PostImageAsWritten(c, imagePath, true)
    ensures PostImage(c, imagePath, true).Success? ==>
      PostImage(c, imagePath, true).value.xhr == PostImageAsWritten(c, imagePath, true).value.xhr
    ensures PostImage(c, imagePath, true).Success? ==>
      PostImage(c, imagePath, true).value.url != PostImageAsWritten(c, imagePath, true).value.url
  {
  }

  /** A client built with a secret can upload any named file. */
  lemma ClientWithSecretCanUpload(cloudName: string, apiKey: string, secret: string, imagePath: string, isHttps: bool)
    ensures var c := NewClient(Some(cloudName), Some(apiKey), Some(secret));
      c.Success? && PostImage(c.value, Some(imagePath), isHttps).Success?
  {
  }

  /** A client built without a secret can download but never upload. */
  lemma ClientWithoutSecret(cloudName: string, apiKey: string, imageName: string, imagePath: Option<string>, https: bool, options: OptionsArg)
    ensures var c := NewClient(Some(cloudName), Some(apiKey), None);
      && c.Success?
      && GetImage(c.value, Some(imageName), https, options).Success?
      && PostImage(c.value, imagePath, https).Failure?
  {
  }
}

/** A worked download URL: cloud `demo`, image `cat.png`, width 100 and crop `fill`. */
module ClientExamples {
  import opened Results
  import opened Transform
  import opened TransformExamples
  import opened Urls
  import opened Client

  lemma DemoCatUrl()
    ensures GetImage(Cloudinary("demo", "key", None), Some("cat.png"), false, Obj(WidthCrop))
      == Success("http://res.cloudinary.com/demo/image/upload/w_100,c_fill/cat.png")
  {
    WidthCropEncoding();
    var url := UrlRes("demo", Some("w_100,c_fill"), "cat.png", false);
    assert url == ResHttpHost + "demo" + "/" + UploadPath + ("w_100,c_fill" + "/") + "cat.png";
    assert ResHttpHost + "demo" == "http://res.cloudinary.com/demo";
    assert "http://res.cloudinary.com/demo" + "/" == "http://res.cloudinary.com/demo/";
    assert "http://res.cloudinary.com/demo/" + UploadPath == "http://res.cloudinary.com/demo/image/upload/";
    assert "w_100,c_fill" + "/" == "w_100,c_fill/";
    assert "http://res.cloudinary.com/demo/image/upload/" + "w_100,c_fill/"
      == "http://res.cloudinary.com/demo/image/upload/w_100,c_fill/";
    assert "http://res.cloudinary.com/demo/image/upload/w_100,c_fill/" + "cat.png"
      == "http://res.cloudinary.com/demo/image/upload/w_100,c_fill/cat.png";
  }
}

=== FILE: decimal.dfy ===
/**
 Decimal rendering of integers, as JavaScript's `value + ''` renders an
 integral Number, and the parser that inverts it.
 */
module Decimal {
  import opened Results

  predicate IsDigit(c: char)
  {
    '0' <= c <= '9'
  }

  predicate AllDigits(s: string)
  {
    forall i :: 0 <= i < |s| ==> IsDigit(s[i])
  }

  function DigitChar(d: nat): (c: char)
    requires d < 10
    ensures IsDigit(c)
  {
    ('0' as int + d) as char
  }

  function DigitValue(c: char): (d: nat)
    requires IsDigit(c)
    ensures d < 10
  {
    c as int - '0' as int
  }

  /** The decimal digits of `n`, most significant first, without leading zeros. */
  function NatToString(n: nat): (s: string)
    ensures |s| > 0 && AllDigits(s)
    ensures |s| > 1 ==> s[0] != '0'
  {
    if n < 10 then [DigitChar(n)]
    else NatToString(n / 10) + [DigitChar(n % 10)]
  }

  /** The decimal form of `i`: a minus sign before the digits of `-i` when `i` is negative. */
  function IntToString(i: int): (s: string)
    ensures |s| > 0
    ensures s[0] == '-' <==> i < 0
    ensures var d := if i < 0 then s[1..] else s;
      && |d| > 0 && AllDigits(d)
      && (|d| > 1 ==> d[0] != '0')
  {
    if i < 0 then
      var s := "-" + NatToString(-i);
      assert s[1..] == NatToString(-i);
      s
    else NatToString(i)
  }

  /** The number whose decimal digits are `s`. */
  function ParseNat(s: string): nat
    requires AllDigits(s)
  {
    if |s| == 0 then 0
    else ParseNat(s[..|s| - 1]) * 10 + DigitValue(s[|s| - 1])
  }

  /** The integer written in `s` as optional minus sign and decimal digits; `None` when `s` is not such a numeral. */
  function ParseInt(s: string): Option<int>
  {
    if |s| == 0 then None
    else if s[0] == '-' then
      if |s| > 1 && AllDigits(s[1..]) then Some(-(ParseNat(s[1..]) as int)) else None
    else if AllDigits(s) then Some(ParseNat(s))
    else None
  }

  lemma {:induction false} NatRoundTrip(n: nat)
    ensures ParseNat(NatToString(n)) == n
  {
    if n >= 10 {
      var s := NatToString(n);
      assert s[..|s| - 1] == NatToString(n / 10);
      NatRoundTrip(n / 10);
    }
  }

  /** Parsing the decimal form of any integer gives the integer back. */
  lemma IntRoundTrip(i: int)
    ensures ParseInt(IntToString(i)) == Some(i)
  {
    if i < 0 {
      NatRoundTrip(-i);
      assert IntToString(i)[1..] == NatToString(-i);
    } else {
      NatRoundTrip(i);
    }
  }

  /** Distinct integers have distinct decimal forms. */
  lemma IntToStringInjective(i: int, j: int)
    requires IntToString(i) == IntToString(j)
    ensures i == j
  {
    IntRoundTrip(i);
    IntRoundTrip(j);
  }
}

=== FILE: results.dfy ===
/**
 Failure-carrying datatypes used across the model: `Option` stands for a
 JavaScript value that may be `undefined`, `Result` for a call that either
 returns or throws.
 */
module Results {

  /** A value that may be absent (JavaScript `undefined`). */
  datatype Option<+T> = None | Some(value: T) {

    /** The carried value, or `default` when absent. */
    function GetOr(default: T): T {
      match this
      case Some(v) => v
      case None => default
    }
  }

  /** The outcome of a call that may throw: a returned value or the thrown error. */
  datatype Result<+R, +E> = Success(value: R) | Failure(error: E)
}

=== FILE: strings.dfy ===
/**
 String helpers shared by the encoder and the URL builders: splitting at the
 first occurrence of a separator, joining with a separator, and splitting a
 joined string back into its fields.
 */
module Strings {
  import opened Results

  /** Splits `s` at the first occurrence of `c` into the part before and the part after it. */
  function SplitAt(s: string, c: char): (r: Option<(string, string)>)
    ensures r.None? <==> c !in s
    ensures r.Some? ==> c !in r.value.0 && s == r.value.0 + [c] + r.value.1
  {
    if |s| == 0 then None
    else if s[0] == c then Some(([], s[1..]))
    else
      match SplitAt(s[1..], c)
      case None => None
      case Some((a, b)) => Some(([s[0]] + a, b))
  }

  /** Splitting recovers the parts exactly when the separator does not occur in the first part. */
  lemma {:induction false} SplitAtUnique(a: string, b: string, c: char)
    requires c !in a
    ensures SplitAt(a + [c] + b, c) == Some((a, b))
  {
    var s := a + [c] + b;
    if |a| == 0 {
      assert s[1..] == b;
    } else {
      assert s[0] == a[0];
      assert s[1..] == a[1..] + [c] + b;
      SplitAtUnique(a[1..], b, c);
      assert [a[0]] + a[1..] == a;
    }
  }

  /** The tokens `toks` joined by single separators, with none before the first or after the last. */
  function Join(toks: seq<string>, sep: char): string
  {
    if |toks| == 0 then ""
    else if |toks| == 1 then toks[0]
    else toks[0] + [sep] + Join(toks[1..], sep)
  }

  /** A join of lists whose first token is non-empty is non-empty. */
  lemma JoinNonEmpty(toks: seq<string>, sep: char)
    requires |toks| > 0 && |toks[0]| > 0
    ensures |Join(toks, sep)| > 0
  {
  }

  /** Appending one token to a non-empty list adds exactly one separator before it. */
  lemma {:induction false} JoinSnoc(toks: seq<string>, t: string, sep: char)
    requires |toks| > 0
    ensures Join(toks + [t], sep) == Join(toks, sep) + [sep] + t
  {
    if |toks| == 1 {
      assert toks + [t] == [toks[0], t];
      assert [toks[0], t][1..] == [t];
    } else {
      assert (toks + [t])[1..] == toks[1..] + [t];
      JoinSnoc(toks[1..], t, sep);
    }
  }

  /** The fields of `s` between consecutive occurrences of `sep`; `s` itself when `sep` does not occur. */
  function Fields(s: string, sep: char): (r: seq<string>)
    ensures |r| > 0
    decreases |s|
  {
    match SplitAt(s, sep)
    case None => [s]
    case Some((a, b)) => [a] + Fields(b, sep)
  }

  /** No token contains the separator. */
  predicate SeparatorFree(toks: seq<string>, sep: char)
  {
    forall i :: 0 <= i < |toks| ==> sep !in toks[i]
  }

  /** Joining separator-free tokens and splitting the result gives the tokens back. */
  lemma {:induction false} FieldsOfJoin(toks: seq<string>, sep: char)
    requires |toks| > 0
    requires SeparatorFree(toks, sep)
    ensures Fields(Join(toks, sep), sep) == toks
  {
    if |toks| == 1 {
      assert sep !in toks[0];
    } else {
      assert sep !in toks[0];
      SplitAtUnique(toks[0], Join(toks[1..], sep), sep);
      FieldsOfJoin(toks[1..], sep);
      assert toks == [toks[0]] + toks[1..];
    }
  }

  /**
   Joining non-empty, separator-free tokens never produces a leading, trailing
   or doubled separator.
   */
  lemma {:induction false} JoinWellFormed(toks: seq<string>, sep: char)
    requires forall i :: 0 <= i < |toks| ==> |toks[i]| > 0 && sep !in toks[i]
    ensures var r := Join(toks, sep);
      && (|r| > 0 ==> r[0] != sep && r[|r| - 1] != sep)
      && (forall i :: 0 <= i < |r| - 1 ==> !(r[i] == sep && r[i + 1] == sep))
  {
    if |toks| == 1 {
      assert sep !in toks[0];
      forall i | 0 <= i < |toks[0]|
        ensures toks[0][i] != sep
      {
        assert toks[0][i] in toks[0];
      }
    } else if |toks| > 1 {
      var t := toks[0];
      var rest := Join(toks[1..], sep);
      JoinWellFormed(toks[1..], sep);
      assert |toks[1]| > 0;
      assert |rest| > 0 by {
        if |toks[1..]| == 1 {
        } else {
          assert |Join(toks[1..], sep)| >= |toks[1]|;
        }
      }
      var r := t + [sep] + rest;
      assert r == Join(toks, sep);
      forall i | 0 <= i < |t|
        ensures t[i] != sep
      {
        assert t[i] in t;
      }
      forall i | 0 <= i < |r| - 1
        ensures !(r[i] == sep && r[i + 1] == sep)
      {
        if i < |t| {
          assert r[i] == t[i];
        } else if i == |t| {
          assert r[i + 1] == rest[0];
        } else {
          assert r[i] == rest[i - |t| - 1];
          assert r[i + 1] == rest[i - |t|];
        }
      }
      assert r[|r| - 1] == rest[|rest| - 1];
      assert r[0] == t[0];
    }
  }
}

=== FILE: transform.dfy ===
/**
 The transformation-option encoder of cloudinary.js (`parametrizeIfExists`
 and `stringify`): an options object is turned into a comma-separated list
 of `code_value` tokens by walking a fixed 19-entry table in table order.
 */
module Transform {
  import opened Results
  import opened Strings
  import opened Decimal

  /** A scalar option value. Numbers are restricted to integers. */
  datatype Value = Num(n: int) | Str(s: string)

  /**
   The `options` argument of `stringify`: `undefined`, some value that is not
   an object (null, a number, a string, a boolean), or an object whose own
   properties are the map.
   */
  datatype OptionsArg = Undefined | NotAnObject | Obj(props: map<string, Value>)

  /** The two value converters of the table. */
  datatype Converter = FaceDetection | Radius

  /** One row of the option table: the option name, its short code if any, its converter if any. */
  datatype Entry = Entry(name: string, short: Option<string>, convert: Option<Converter>)

  /** The option table, in emission order. */
  const Table: seq<Entry> := [
    Entry("width", Some("w"), None),
    Entry("height", Some("h"), None),
    Entry("crop", Some("c"), None),
    Entry("x", None, None),
    Entry("y", None, None),
    Entry("faceDetection", Some("g"), Some(FaceDetection)),
    Entry("radius", Some("r"), Some(Radius)),
    Entry("transformation", Some("t"), None),
    Entry("gravity", Some("g"), None),
    Entry("quality", Some("q"), None),
    Entry("angle", Some("a"), None),
    Entry("effect", Some("e"), None),
    Entry("border", Some("bo"), None),
    Entry("background", Some("b"), None),
    Entry("overlay", Some("l"), None),
    Entry("underlay", Some("u"), None),
    Entry("default", Some("d"), None),
    Entry("page", Some("pg"), None),
    Entry("density", Some("dn"), None)
  ]

  /** The code a token of entry `e` starts with: its short code, or else the option name itself. */
  function Code(e: Entry): string
  {
    match e.short
    case Some(r) => r
    case None => e.name
  }

  /** JavaScript's `value + ''` for an option value. */
  function Render(v: Value): string
  {
    match v
    case Num(n) => IntToString(n)
    case Str(s) => s
  }

  /**
   The table's converters, followed by `+ ''`. A string handed to a converter
   is taken as one JavaScript's loose comparisons do not turn into a number.
   */
  function Convert(c: Converter, v: Value): string
  {
    match (c, v)
    case (FaceDetection, Num(n)) => if n < 1 then "" else if n == 1 then "face" else "faces"
    case (FaceDetection, Str(_)) => "faces"
    case (Radius, Num(n)) => if n == -1 then "max" else IntToString(n)
    case (Radius, Str(s)) => s
  }

  /** The value part of the token of `e` for value `v`; `None` when a converter yields the empty string. */
  function ValuePart(e: Entry, v: Value): Option<string>
  {
    match e.convert
    case Some(c) => if Convert(c, v) == "" then None else Some(Convert(c, v))
    case None => Some(Render(v))
  }

  /**
   The token of entry `e` for the options `props`, or `None` (the source's
   `false`) when the option is absent or its converter yields the empty string.
   */
  function ParametrizeIfExists(props: map<string, Value>, e: Entry): (r: Option<string>)
    ensures r.Some? ==> e.name in props && Code(e) + "_" <= r.value
    ensures r.None? <==>
      (e.name !in props || (e.convert.Some? && Convert(e.convert.value, props[e.name]) == ""))
  {
    if e.name !in props then None
    else
      match ValuePart(e, props[e.name])
      case None => None
      case Some(s) => Some(Code(e) + "_" + s)
  }

  /** The carried token as a one-element list, or the empty list. */
  function AsSeq(o: Option<string>): seq<string>
  {
    match o
    case Some(x) => [x]
    case None => []
  }

  /** The tokens the first `n` entries of `t` emit for `props`, in table order. */
  function Tokens(props: map<string, Value>, t: seq<Entry>, n: nat): (r: seq<string>)
    requires n <= |t|
    ensures |r| <= n
  {
    if n == 0 then []
    else
      Tokens(props, t, n - 1) + AsSeq(ParametrizeIfExists(props, t[n - 1]))
  }

  /** The positions among the first `n` entries of `t` that emit a token for `props`, in increasing order. */
  function EmitIndices(props: map<string, Value>, t: seq<Entry>, n: nat): seq<nat>
    requires n <= |t|
  {
    if n == 0 then []
    else
      EmitIndices(props, t, n - 1)
      + (if ParametrizeIfExists(props, t[n - 1]).Some? then [n - 1] else [])
  }

  /** Emitting positions and tokens are equally many, and each position lies below `n`. */
  lemma {:induction false} EmitIndicesBounded(props: map<string, Value>, t: seq<Entry>, n: nat)
    requires n <= |t|
    ensures |EmitIndices(props, t, n)| == |Tokens(props, t, n)|
    ensures forall j :: 0 <= j < |EmitIndices(props, t, n)| ==> EmitIndices(props, t, n)[j] < n
  {
    if n > 0 {
      EmitIndicesBounded(props, t, n - 1);
    }
  }

  /** The j-th token is the one the entry at the j-th emitting position produces. */
  lemma {:induction false} EmitIndicesTokens(props: map<string, Value>, t: seq<Entry>, n: nat)
    requires n <= |t|
    ensures |EmitIndices(props, t, n)| == |Tokens(props, t, n)|
    ensures forall j :: 0 <= j < |EmitIndices(props, t, n)| ==>
      EmitIndices(props, t, n)[j] < n && ParametrizeIfExists(props, t[EmitIndices(props, t, n)[j]]) == Some(Tokens(props, t, n)[j])
  {
    EmitIndicesBounded(props, t, n);
    if n > 0 {
      EmitIndicesTokens(props, t, n - 1);
      var idx0, toks0 := EmitIndices(props, t, n - 1), Tokens(props, t, n - 1);
      var idx, toks := EmitIndices(props, t, n), Tokens(props, t, n);
      if ParametrizeIfExists(props, t[n - 1]).Some? {
        forall j | 0 <= j < |idx|
          ensures ParametrizeIfExists(props, t[idx[j]]) == Some(toks[j])
        {
          if j < |idx0| {
            assert idx[j] == idx0[j] && toks[j] == toks0[j];
          }
        }
      } else {
        assert idx == idx0 && toks == toks0;
      }
    }
  }

  /** Emitting positions strictly increase. */
  lemma {:induction false} EmitIndicesIncreasing(props: map<string, Value>, t: seq<Entry>, n: nat)
    requires n <= |t|
    ensures forall j, k :: 0 <= j < k < |EmitIndices(props, t, n)| ==> EmitIndices(props, t, n)[j] < EmitIndices(props, t, n)[k]
  {
    if n > 0 {
      EmitIndicesIncreasing(props, t, n - 1);
      EmitIndicesBounded(props, t, n - 1);
    }
  }

  /** A position is among the emitting ones exactly when its entry emits. */
  lemma {:induction false} EmitIndicesMembers(props: map<string, Value>, t: seq<Entry>, n: nat)
    requires n <= |t|
    ensures forall i :: 0 <= i < n ==> (ParametrizeIfExists(props, t[i]).Some? <==> i in EmitIndices(props, t, n))
  {
    if n > 0 {
      EmitIndicesMembers(props, t, n - 1);
      EmitIndicesBounded(props, t, n - 1);
      assert (n - 1) !in EmitIndices(props, t, n - 1);
    }
  }

  /**
   The token list is exactly the tokens of the emitting entries, one each, in
   table order: the j-th token comes from the j-th emitting entry, positions
   strictly increase, and an entry is among them iff it emits.
   */
  lemma {:induction false} TokensInTableOrder(props: map<string, Value>, t: seq<Entry>, n: nat)
    requires n <= |t|
    ensures var idx := EmitIndices(props, t, n); var toks := Tokens(props, t, n);
      && |idx| == |toks|
      && (forall j :: 0 <= j < |idx| ==> idx[j] < n && ParametrizeIfExists(props, t[idx[j]]) == Some(toks[j]))
      && (forall j, k :: 0 <= j < k < |idx| ==> idx[j] < idx[k])
      && (forall i :: 0 <= i < n ==> (ParametrizeIfExists(props, t[i]).Some? <==> i in idx))
  {
    EmitIndicesTokens(props, t, n);
    EmitIndicesIncreasing(props, t, n);
    EmitIndicesMembers(props, t, n);
  }

  /** Entries whose name is not `k` emit the same tokens whatever `k` maps to. */
  lemma {:induction false} TokensIgnoreOtherKeys(props: map<string, Value>, t: seq<Entry>, n: nat, k: string, v: Value)
    requires n <= |t|
    requires forall i :: 0 <= i < n ==> t[i].name != k
    ensures Tokens(props[k := v], t, n) == Tokens(props, t, n)
  {
    if n > 0 {
      TokensIgnoreOtherKeys(props, t, n - 1, k, v);
    }
  }

  /** The reference encoding: `None` for a non-object, else the comma-join of the table-order tokens. */
  function Encode(options: OptionsArg): Option<string>
  {
    match options
    case Obj(props) => Some(Join(Tokens(props, Table, |Table|), ','))
    case _ => None
  }

  /**
   The loop of `stringify` over the entries `t`: each token is appended,
   preceded by a comma once one has been seen.
   */
  method StringifyEntries(props: map<string, Value>, t: seq<Entry>) returns (res: string)
    ensures res == Join(Tokens(props, t, |t|), ',')
  {
    res := "";
    var sawOne := false;
    for i := 0 to |t|
      invariant res == Join(Tokens(props, t, i), ',')
      invariant sawOne <==> |Tokens(props, t, i)| > 0
    {
      var tmp := ParametrizeIfExists(props, t[i]);
      if tmp.Some? {
        ghost var before := Tokens(props, t, i);
        assert Tokens(props, t, i + 1) == before + [tmp.value];
        if sawOne {
          JoinSnoc(before, tmp.value, ',');
          res := res + "," + tmp.value;
        } else {
          assert before + [tmp.value] == [tmp.value];
          res := res + tmp.value;
        }
        sawOne := true;
      } else {
        assert Tokens(props, t, i + 1) == Tokens(props, t, i);
      }
    }
  }

  /** `stringify`: no query for a non-object, else the table loop's output. */
  method Stringify(options: OptionsArg) returns (r: Option<string>)
    ensures r.None? <==> !options.Obj?
    ensures r == Encode(options)
  {
    if !options.Obj? {
      return None;
    }
    var res := StringifyEntries(options.props, Table);
    r := Some(res);
  }

  /** The token (if any) that table entry `i` emits for `props`. */
  function Emit(props: map<string, Value>, i: nat): seq<string>
    requires i < |Table|
  {
    AsSeq(ParametrizeIfExists(props, Table[i]))
  }

  /** An entry whose option is absent emits nothing. */
  lemma EmitAbsent(props: map<string, Value>, i: nat)
    requires i < |Table| && Table[i].name !in props
    ensures Emit(props, i) == []
  {
  }

  lemma TokensUnfold(props: map<string, Value>, t: seq<Entry>, n: nat)
    requires n < |t|
    ensures Tokens(props, t, n + 1) == Tokens(props, t, n) + AsSeq(ParametrizeIfExists(props, t[n]))
  {
  }

  /**
   Given what each table entry emits, the table's tokens are those emissions
   in table order. Written out for the table's 19 entries, so that a worked
   example gets a literal concatenation to compute with instead of a
   recursion to unfold; the general statement is `TokensInTableOrder`.
   */
  lemma TokensFromEntries(props: map<string, Value>, e: seq<seq<string>>)
    requires |e| == 19
    requires Emit(props, 0) == e[0] && Emit(props, 1) == e[1] && Emit(props, 2) == e[2] && Emit(props, 3) == e[3] && Emit(props, 4) == e[4] && Emit(props, 5) == e[5] && Emit(props, 6) == e[6] && Emit(props, 7) == e[7] && Emit(props, 8) == e[8] && Emit(props, 9) == e[9] && Emit(props, 10) == e[10] && Emit(props, 11) == e[11] && Emit(props, 12) == e[12] && Emit(props, 13) == e[13] && Emit(props, 14) == e[14] && Emit(props, 15) == e[15] && Emit(props, 16) == e[16] && Emit(props, 17) == e[17] && Emit(props, 18) == e[18]
    ensures Tokens(props, Table, |Table|) ==
      e[0] + e[1] + e[2] + e[3] + e[4] + e[5] + e[6] + e[7] + e[8] + e[9] + e[10] + e[11] + e[12] + e[13] + e[14] + e[15] + e[16] + e[17] + e[18]
  {
    assert |Table| == 19;
    TokensUnfold(props, Table, 0);
    TokensUnfold(props, Table, 1);
    TokensUnfold(props, Table, 2);
    TokensUnfold(props, Table, 3);
    TokensUnfold(props, Table, 4);
    TokensUnfold(props, Table, 5);
    TokensUnfold(props, Table, 6);
    TokensUnfold(props, Table, 7);
    TokensUnfold(props, Table, 8);
    TokensUnfold(props, Table, 9);
    TokensUnfold(props, Table, 10);
    TokensUnfold(props, Table, 11);
    TokensUnfold(props, Table, 12);
    TokensUnfold(props, Table, 13);
    TokensUnfold(props, Table, 14);
    TokensUnfold(props, Table, 15);
    TokensUnfold(props, Table, 16);
    TokensUnfold(props, Table, 17);
    TokensUnfold(props, Table, 18);
    assert Tokens(props, Table, 0) + Emit(props, 0) == Emit(props, 0);
  }

  // ----- properties of the table -----

  /** `k` names no entry of the table. */
  predicate NotInTable(k: string)
  {
    forall i :: 0 <= i < |Table| ==> Table[i].name != k
  }

  /** Keys outside the table contribute nothing to the encoding. */
  lemma UnknownKeysIgnored(props: map<string, Value>, k: string, v: Value)
    requires NotInTable(k)
    ensures Encode(Obj(props[k := v])) == Encode(Obj(props))
  {
    TokensIgnoreOtherKeys(props, Table, |Table|, k, v);
  }

  /** The encoding has at most one token per table entry, so at most nineteen. */
  lemma AtMostNineteenTokens(props: map<string, Value>)
    ensures |Tokens(props, Table, |Table|)| <= 19
  {
  }

  /** No two table entries share an option name, so an option has exactly one entry. */
  lemma NamesDistinct()
    ensures forall i, j :: 0 <= i < j < |Table| ==> Table[i].name != Table[j].name
  {
  }

  /** Entries none of whose options is present emit nothing. */
  lemma {:induction false} TokensWithoutOptions(props: map<string, Value>, t: seq<Entry>, n: nat)
    requires n <= |t|
    requires forall i :: 0 <= i < n ==> t[i].name !in props
    ensures Tokens(props, t, n) == []
  {
    if n > 0 {
      TokensWithoutOptions(props, t, n - 1);
    }
  }

  /**
   An object without any option of the table encodes as the empty string
   (not as no query), so a URL built from it carries an empty segment.
   */
  lemma OnlyUnknownKeys(props: map<string, Value>)
    requires forall k :: k in props ==> NotInTable(k)
    ensures Encode(Obj(props)) == Some("")
  {
    TokensWithoutOptions(props, Table, |Table|);
  }

  /** Options named only in the documentation, `rounded` and `default_image`, are not in the table. */
  lemma DocumentedNamesNotInTable()
    ensures NotInTable("rounded") && NotInTable("default_image")
  {
  }

  /** `{rounded: -1}`, documented as giving a circular image, encodes as the empty query. */
  lemma RoundedIgnored()
    ensures Encode(Obj(map["rounded" := Num(-1)])) == Some("")
  {
    DocumentedNamesNotInTable();
    OnlyUnknownKeys(map["rounded" := Num(-1)]);
  }

  // ----- decoding a query back into (code, value) pairs -----

  /** A token split at its first underscore into code and value. */
  function DecodeToken(tok: string): (string, string)
  {
    match SplitAt(tok, '_')
    case Some(p) => p
    case None => (tok, "")
  }

  /** The (code, value) pairs of a comma-separated query; none for the empty query. */
  function DecodeQuery(q: string): seq<(string, string)>
  {
    if q == "" then []
    else
      var f := Fields(q, ',');
      seq(|f|, i requires 0 <= i < |f| => DecodeToken(f[i]))
  }

  /** The (code, value) pairs the first `n` entries of `t` stand for, in table order. */
  function Pairs(props: map<string, Value>, t: seq<Entry>, n: nat): seq<(string, string)>
    requires n <= |t|
  {
    if n == 0 then []
    else
      var e := t[n - 1];
      Pairs(props, t, n - 1)
      + (if e.name in props && ValuePart(e, props[e.name]).Some?
         then [(Code(e), ValuePart(e, props[e.name]).value)] else [])
  }

  /** No code contains the underscore or the comma. */
  predicate CleanCodes(t: seq<Entry>)
  {
    forall i :: 0 <= i < |t| ==> '_' !in Code(t[i]) && ',' !in Code(t[i])
  }

  /** No string option value contains a comma. */
  predicate CommaFree(props: map<string, Value>)
  {
    forall k :: k in props && props[k].Str? ==> ',' !in props[k].s
  }

  lemma TableCodesClean()
    ensures CleanCodes(Table)
  {
  }

  /** A value part never contains a comma unless the option's string value does. */
  lemma ValuePartCommaFree(e: Entry, v: Value)
    requires v.Str? ==> ',' !in v.s
    requires ValuePart(e, v).Some?
    ensures ',' !in ValuePart(e, v).value
  {
    if v.Num? {
      var d := IntToString(v.n);
      assert forall k :: 0 <= k < |d| ==> d[k] != ',';
    }
  }

  /** Each token decodes to its entry's (code, value) pair, and no token is empty or holds a comma. */
  lemma {:induction false} TokensDecode(props: map<string, Value>, t: seq<Entry>, n: nat)
    requires n <= |t| && CleanCodes(t) && CommaFree(props)
    ensures var toks := Tokens(props, t, n);
      && |toks| == |Pairs(props, t, n)|
      && (forall j :: 0 <= j < |toks| ==> DecodeToken(toks[j]) == Pairs(props, t, n)[j])
      && (forall j :: 0 <= j < |toks| ==> |toks[j]| > 0 && ',' !in toks[j])
  {
    if n > 0 {
      TokensDecode(props, t, n - 1);
      var e := t[n - 1];
      var p := ParametrizeIfExists(props, e);
      if p.Some? {
        var v := ValuePart(e, props[e.name]).value;
        assert p.value == Code(e) + "_" + v;
        assert '_' !in Code(e) && ',' !in Code(e);
        SplitAtUnique(Code(e), v, '_');
        ValuePartCommaFree(e, props[e.name]);
        assert ',' !in p.value;
      }
    }
  }

  /**
   Splitting the encoding at commas and each token at its first underscore
   gives back, in table order, the code and value of every emitted option,
   provided no string value contains a comma.
   */
  lemma QueryRoundTrip(props: map<string, Value>)
    requires CommaFree(props)
    ensures DecodeQuery(Encode(Obj(props)).value) == Pairs(props, Table, |Table|)
  {
    TableCodesClean();
    TokensDecode(props, Table, |Table|);
    var toks := Tokens(props, Table, |Table|);
    if |toks| == 0 {
    } else {
      FieldsOfJoin(toks, ',');
      JoinWellFormed(toks, ',');
      assert Join(toks, ',') != "" by {
        assert |toks[0]| > 0;
        assert Join(toks, ',')[0] != ',';
      }
    }
  }

  /**
   The encoding of comma-free options has no leading, trailing or doubled
   comma, and no empty token.
   */
  lemma EncodeWellFormed(props: map<string, Value>)
    requires CommaFree(props)
    ensures var q := Encode(Obj(props)).value;
      && (|q| > 0 ==> q[0] != ',' && q[|q| - 1] != ',')
      && (forall i :: 0 <= i < |q| - 1 ==> !(q[i] == ',' && q[i + 1] == ','))
  {
    TableCodesClean();
    TokensDecode(props, Table, |Table|);
    JoinWellFormed(Tokens(props, Table, |Table|), ',');
  }

  // ----- the property lookup as written -----

  /** An exception thrown by the JavaScript runtime. */
  datatype JsError = TypeError(message: string)

  /**
   `parametrizeIfExists` as written: after `hasOwnProperty` succeeds it calls
   `getOwnPropertyDescriptor` on the options object itself, which plain
   objects do not have, so every present option throws.
   */
  function ParametrizeAsWritten(props: map<string, Value>, e: Entry): Result<Option<string>, JsError>
  {
    if e.name !in props then Success(None)
    else Failure(TypeError("obj.getOwnPropertyDescriptor is not a function"))
  }

  /** The `stringify` loop over the first `n` entries of `t` with the lookup as written. */
  function TokensAsWritten(props: map<string, Value>, t: seq<Entry>, n: nat): Result<seq<string>, JsError>
    requires n <= |t|
  {
    if n == 0 then Success([])
    else
      match TokensAsWritten(props, t, n - 1)
      case Failure(err) => Failure(err)
      case Success(toks) =>
        match ParametrizeAsWritten(props, t[n - 1])
        case Failure(err) => Failure(err)
        case Success(o) => Success(toks + AsSeq(o))
  }

  /** `stringify` with the lookup as written. */
  function StringifyAsWritten(options: OptionsArg): Result<Option<string>, JsError>
  {
    match options
    case Obj(props) =>
      (match TokensAsWritten(props, Table, |Table|)
       case Failure(err) => Failure(err)
       case Success(toks) => Success(Some(Join(toks, ','))))
    case _ => Success(None)
  }

  /** As written, the loop throws exactly when some entry's option is present; otherwise it emits nothing. */
  lemma {:induction false} AsWrittenThrowsIffOptionPresent(props: map<string, Value>, t: seq<Entry>, n: nat)
    requires n <= |t|
    ensures TokensAsWritten(props, t, n).Failure? <==> exists i :: 0 <= i < n && t[i].name in props
    ensures TokensAsWritten(props, t, n).Success? ==> TokensAsWritten(props, t, n).value == []
  {
    if n > 0 {
      AsWrittenThrowsIffOptionPresent(props, t, n - 1);
      if t[n - 1].name in props {
        assert exists i :: 0 <= i < n && t[i].name in props;
      }
    }
  }

  /**
   As written, `stringify` throws for every object holding a table option,
   while the intended encoding emits that option's token.
   */
  lemma AsWrittenThrowsOnKnownOption(props: map<string, Value>, i: nat)
    requires i < |Table| && Table[i].name in props
    ensures StringifyAsWritten(Obj(props)).Failure?
    ensures ParametrizeIfExists(props, Table[i]).Some? ==> Encode(Obj(props)).value != ""
  {
    AsWrittenThrowsIffOptionPresent(props, Table, |Table|);
    if ParametrizeIfExists(props, Table[i]).Some? {
      TokensInTableOrder(props, Table, |Table|);
      var toks := Tokens(props, Table, |Table|);
      assert |toks| > 0 && |toks[0]| > 0;
      JoinNonEmpty(toks, ',');
    }
  }

  /** The short codes of the table, including the two entries that share `g`. */
  lemma ShortCodes()
    ensures Code(Table[0]) == "w" && Code(Table[1]) == "h" && Code(Table[2]) == "c"
    ensures Code(Table[3]) == "x" && Code(Table[4]) == "y"
    ensures Table[5].name == "faceDetection" && Code(Table[5]) == "g"
    ensures Table[8].name == "gravity" && Code(Table[8]) == "g"
  {
  }

  /** faceDetection below 1 emits nothing, 1 emits `g_face`, above 1 emits `g_faces`. */
  lemma FaceDetectionConverter(props: map<string, Value>, n: int)
    requires "faceDetection" in props && props["faceDetection"] == Num(n)
    ensures n < 1 ==> ParametrizeIfExists(props, Table[5]) == None
    ensures n == 1 ==> ParametrizeIfExists(props, Table[5]) == Some("g_face")
    ensures n > 1 ==> ParametrizeIfExists(props, Table[5]) == Some("g_faces")
  {
    assert Table[5] == Entry("faceDetection", Some("g"), Some(FaceDetection));
    assert "g" + "_" + "face" == "g_face";
    assert "g" + "_" + "faces" == "g_faces";
  }

  /** radius -1 emits `r_max`; any other value emits `r_` and its decimal form. */
  lemma RadiusConverter(props: map<string, Value>, n: int)
    requires "radius" in props && props["radius"] == Num(n)
    ensures n == -1 ==> ParametrizeIfExists(props, Table[6]) == Some("r_max")
    ensures n != -1 ==> ParametrizeIfExists(props, Table[6]) == Some("r_" + IntToString(n))
  {
    assert Table[6] == Entry("radius", Some("r"), Some(Radius));
    var e := Table[6];
    assert e == Entry("radius", Some("r"), Some(Radius));
    assert Code(e) == "r";
    if n != -1 {
      assert Convert(Radius, Num(n)) == IntToString(n);
      assert |IntToString(n)| > 0;
      assert "r" + "_" == "r_";
      assert ValuePart(e, Num(n)) == Some(IntToString(n));
    } else {
      assert "r" + "_" + "max" == "r_max";
    }
  }

  /**
   A present table option is dropped only when its converter yields the empty
   string: faceDetection below 1, or radius given the empty string. Every other
   present option, the empty string included, emits `<code>_<value>`.
   */
  lemma DroppedOnlyByConverter(props: map<string, Value>, i: nat)
    requires i < |Table| && Table[i].name in props
    ensures ParametrizeIfExists(props, Table[i]).None? <==>
      || (i == 5 && props[Table[i].name].Num? && props[Table[i].name].n < 1)
      || (i == 6 && props[Table[i].name] == Str(""))
    ensures Table[i].convert.None? ==>
      ParametrizeIfExists(props, Table[i]) == Some(Code(Table[i]) + "_" + Render(props[Table[i].name]))
  {
    var v := props[Table[i].name];
    if i == 6 && v.Num? {
      assert |IntToString(v.n)| > 0;
    }
  }
}

module TransformExamples {
  import opened Results
  import opened Strings
  import opened Decimal
  import opened Transform

  const WidthCrop := map["width" := Num(100), "crop" := Str("fill")]
  const FaceAndGravity := map["faceDetection" := Num(1), "gravity" := Str("south")]

  /** The table entries below 9 other than width and crop emit nothing for `WidthCrop`. */
  lemma WidthCropOthersAbsentLow(props: map<string, Value>)
    requires props == WidthCrop
    ensures Emit(props, 1) == []
    ensures Emit(props, 3) == []
    ensures Emit(props, 4) == []
    ensures Emit(props, 5) == []
    ensures Emit(props, 6) == []
    ensures Emit(props, 7) == []
    ensures Emit(props, 8) == []
  {
    EmitAbsent(props, 1);
    EmitAbsent(props, 3);
    EmitAbsent(props, 4);
    EmitAbsent(props, 5);
    EmitAbsent(props, 6);
    EmitAbsent(props, 7);
    EmitAbsent(props, 8);
  }

  /** The table entries from 9 to 18 emit nothing for `WidthCrop`. */
  lemma WidthCropOthersAbsentHigh(props: map<string, Value>)
    requires props == WidthCrop
    ensures Emit(props, 9) == []
    ensures Emit(props, 10) == []
    ensures Emit(props, 11) == []
    ensures Emit(props, 12) == []
    ensures Emit(props, 13) == []
    ensures Emit(props, 14) == []
    ensures Emit(props, 15) == []
    ensures Emit(props, 16) == []
    ensures Emit(props, 17) == []
    ensures Emit(props, 18) == []
  {
    EmitAbsent(props, 9);
    EmitAbsent(props, 10);
    EmitAbsent(props, 11);
    EmitAbsent(props, 12);
    EmitAbsent(props, 13);
    EmitAbsent(props, 14);
    EmitAbsent(props, 15);
    EmitAbsent(props, 16);
    EmitAbsent(props, 17);
    EmitAbsent(props, 18);
  }

  /** width 100 and crop fill give the tokens `w_100` and `c_fill`. */
  lemma WidthCropTokens(props: map<string, Value>)
    requires props == WidthCrop
    ensures Tokens(props, Table, |Table|) == ["w_100", "c_fill"]
  {
    WidthCropOthersAbsentLow(props);
    WidthCropOthersAbsentHigh(props);
    assert Emit(props, 0) == ["w_100"] by {
      assert IntToString(100) == "100";
      assert "w" + "_" + "100" == "w_100";
    }
    assert Emit(props, 2) == ["c_fill"] by {
      assert "c" + "_" + "fill" == "c_fill";
    }
    TokensFromEntries(props, [["w_100"], [], ["c_fill"], [], [], [], [], [], [], [], [], [], [], [], [], [], [], [], []]);
  }

  /** width 100 and crop fill encode as `w_100,c_fill`. */
  lemma WidthCropEncoding()
    ensures Encode(Obj(WidthCrop)) == Some("w_100,c_fill")
  {
    WidthCropTokens(WidthCrop);
    assert Join(["w_100", "c_fill"], ',') == "w_100,c_fill";
  }

  /** The table entries below 9 other than faceDetection and gravity emit nothing for `FaceAndGravity`. */
  lemma FaceAndGravityOthersAbsentLow(props: map<string, Value>)
    requires props == FaceAndGravity
    ensures Emit(props, 0) == []
    ensures Emit(props, 1) == []
    ensures Emit(props, 2) == []
    ensures Emit(props, 3) == []
    ensures Emit(props, 4) == []
    ensures Emit(props, 6) == []
    ensures Emit(props, 7) == []
  {
    EmitAbsent(props, 0);
    EmitAbsent(props, 1);
    EmitAbsent(props, 2);
    EmitAbsent(props, 3);
    EmitAbsent(props, 4);
    EmitAbsent(props, 6);
    EmitAbsent(props, 7);
  }

  /** The table entries from 9 to 18 emit nothing for `FaceAndGravity`. */
  lemma FaceAndGravityOthersAbsentHigh(props: map<string, Value>)
    requires props == FaceAndGravity
    ensures Emit(props, 9) == []
    ensures Emit(props, 10) == []
    ensures Emit(props, 11) == []
    ensures Emit(props, 12) == []
    ensures Emit(props, 13) == []
    ensures Emit(props, 14) == []
    ensures Emit(props, 15) == []
    ensures Emit(props, 16) == []
    ensures Emit(props, 17) == []
    ensures Emit(props, 18) == []
  {
    EmitAbsent(props, 9);
    EmitAbsent(props, 10);
    EmitAbsent(props, 11);
    EmitAbsent(props, 12);
    EmitAbsent(props, 13);
    EmitAbsent(props, 14);
    EmitAbsent(props, 15);
    EmitAbsent(props, 16);
    EmitAbsent(props, 17);
    EmitAbsent(props, 18);
  }

  /** faceDetection 1 and gravity south give `g_face` then `g_south`. */
  lemma FaceAndGravityTokens(props: map<string, Value>)
    requires props == FaceAndGravity
    ensures Tokens(props, Table, |Table|) == ["g_face", "g_south"]
  {
    FaceAndGravityOthersAbsentLow(props);
    FaceAndGravityOthersAbsentHigh(props);
    assert Emit(props, 5) == ["g_face"] by {
      assert "g" + "_" + "face" == "g_face";
    }
    assert Emit(props, 8) == ["g_south"] by {
      assert "g" + "_" + "south" == "g_south";
    }
    TokensFromEntries(props, [[], [], [], [], [], ["g_face"], [], [], ["g_south"], [], [], [], [], [], [], [], [], [], []]);
  }

  /** faceDetection and gravity both emit under `g`, faceDetection's token first. */
  lemma TwoGravityTokens()
    ensures Encode(Obj(FaceAndGravity)) == Some("g_face,g_south")
  {
    FaceAndGravityTokens(FaceAndGravity);
    assert Join(["g_face", "g_south"], ',') == "g_face,g_south";
  }
}

=== FILE: upload.dfy ===
/**
 The upload rendezvous of `postImage`: the request returned to the caller
 waits for two events, the file contents becoming available (`onFileReady`)
 and the caller asking to fire the request (`makeSend`). Whichever of the two
 comes second calls `send`. The request object is reduced to its two
 flags, the buffered file data and a log of the `send` calls, each with the
 file field it carried; what the request itself does with a call is
 abstracted away.
 */
module Upload {
  import opened Results

  /**
   The state of the request. `sent` logs, in order, the file field carried by
   each call to `send`; it is an `Option` because the source sends whatever the
   buffered field holds, which would be `undefined` if the flag were set
   without it.
   */
  datatype Xhr = Xhr(requestReady: bool, fileReady: bool, fileData: Option<string>, sent: seq<Option<string>>)

  /** The state `postImage` returns: both flags down, nothing buffered, nothing sent. */
  function Fresh(): (x: Xhr)
    ensures !x.requestReady && !x.fileReady
    ensures Valid(x) && x.sent == []
  {
    Xhr(false, false, None, [])
  }

  /** The flags are never both up, and the file flag is up exactly when data is buffered. */
  predicate Valid(x: Xhr)
  {
    !(x.requestReady && x.fileReady) && (x.fileReady <==> x.fileData.Some?)
  }

  /** `onFileReady(data)`: send at once if the request is waiting, otherwise buffer the data. */
  function OnFileReady(x: Xhr, data: string): (y: Xhr)
    ensures y.requestReady == x.requestReady
    ensures x.sent <= y.sent
    ensures |y.sent| == |x.sent| + (if x.requestReady then 1 else 0)
    ensures x.requestReady ==> y.sent[|x.sent|] == Some(data) && y.fileReady == x.fileReady && y.fileData == x.fileData
    ensures !x.requestReady ==> y.fileReady && y.fileData == Some(data)
    ensures Valid(x) ==> Valid(y)
  {
    if x.requestReady then x.(sent := x.sent + [Some(data)])
    else x.(fileData := Some(data), fileReady := true)
  }

  /** `makeSend()`: send the buffered data if the file is ready, otherwise mark the request as waiting. */
  function MakeSend(x: Xhr): (y: Xhr)
    ensures y.fileReady == x.fileReady && y.fileData == x.fileData
    ensures x.sent <= y.sent
    ensures |y.sent| == |x.sent| + (if x.fileReady then 1 else 0)
    ensures x.fileReady ==> y.sent[|x.sent|] == x.fileData && y.requestReady == x.requestReady
    ensures !x.fileReady ==> y.requestReady
    ensures Valid(x) ==> Valid(y)
  {
    if x.fileReady then x.(sent := x.sent + [x.fileData])
    else x.(requestReady := true)
  }

  /** The two things that can happen to a pending upload. */
  datatype Event = FileReady(data: string) | MakeSendCall

  function Step(x: Xhr, e: Event): Xhr
  {
    match e
    case FileReady(d) => OnFileReady(x, d)
    case MakeSendCall => MakeSend(x)
  }

  /** The state after the events `es`, in order, starting from `x`. */
  function Run(x: Xhr, es: seq<Event>): Xhr
    decreases |es|
  {
    if |es| == 0 then x else Run(Step(x, es[0]), es[1..])
  }

  // ----- an independent account of what gets sent -----

  /** One send per file event, carrying that event's data: what a waiting request does. */
  function EveryFile(es: seq<Event>): seq<Option<string>>
    decreases |es|
  {
    if |es| == 0 then []
    else
      match es[0]
      case FileReady(d) => [Some(d)] + EveryFile(es[1..])
      case MakeSendCall => EveryFile(es[1..])
  }

  /** One send per `makeSend`, carrying the latest file data, which starts out as `d`. */
  function LatestFile(d: string, es: seq<Event>): seq<Option<string>>
    decreases |es|
  {
    if |es| == 0 then []
    else
      match es[0]
      case FileReady(d') => LatestFile(d', es[1..])
      case MakeSendCall => [Some(d)] + LatestFile(d, es[1..])
  }

  /**
   What a fresh request sends under the events `es`: the first event decides
   which flag latches for good, and from then on either every file event or
   every `makeSend` sends.
   */
  function ExpectedSends(es: seq<Event>): seq<Option<string>>
  {
    if |es| == 0 then []
    else
      match es[0]
      case MakeSendCall => EveryFile(es[1..])
      case FileReady(d) => LatestFile(d, es[1..])
  }

  /** Running the events keeps the state valid and only appends to the log. */
  lemma {:induction false} RunKeepsValid(x: Xhr, es: seq<Event>)
    requires Valid(x)
    ensures Valid(Run(x, es)) && x.sent <= Run(x, es).sent
    decreases |es|
  {
    if |es| > 0 {
      var y := Step(x, es[0]);
      RunKeepsValid(y, es[1..]);
    }
  }

  /** Once the request is waiting and no file is buffered, every file event sends its data. */
  lemma {:induction false} RequestLatched(x: Xhr, es: seq<Event>)
    requires x.requestReady && !x.fileReady
    ensures Run(x, es).sent == x.sent + EveryFile(es)
    decreases |es|
  {
    if |es| > 0 {
      var y := Step(x, es[0]);
      RequestLatched(y, es[1..]);
    }
  }

  /** Once a file is buffered and the request is not waiting, every `makeSend` sends the latest data. */
  lemma {:induction false} FileLatched(x: Xhr, d: string, es: seq<Event>)
    requires x.fileReady && !x.requestReady && x.fileData == Some(d)
    ensures Run(x, es).sent == x.sent + LatestFile(d, es)
    decreases |es|
  {
    if |es| > 0 {
      var y := Step(x, es[0]);
      match es[0]
      case FileReady(d') =>
        FileLatched(y, d', es[1..]);
      case MakeSendCall =>
        FileLatched(y, d, es[1..]);
    }
  }

  /** A fresh request sends exactly what the independent account says. */
  lemma RunMatchesExpected(es: seq<Event>)
    ensures Run(Fresh(), es).sent == ExpectedSends(es)
  {
    if |es| > 0 {
      var y := Step(Fresh(), es[0]);
      match es[0]
      case MakeSendCall =>
        RequestLatched(y, es[1..]);
      case FileReady(d) =>
        FileLatched(y, d, es[1..]);
    }
  }

  /** One file event and one `makeSend`, in either order, send the file data exactly once. */
  lemma EitherOrderSendsOnce(d: string)
    ensures Run(Fresh(), [FileReady(d), MakeSendCall]).sent == [Some(d)]
    ensures Run(Fresh(), [MakeSendCall, FileReady(d)]).sent == [Some(d)]
  {
    var a := [FileReady(d), MakeSendCall];
    var b := [MakeSendCall, FileReady(d)];
    RunMatchesExpected(a);
    RunMatchesExpected(b);
    assert a[1..] == [MakeSendCall] && a[1..][1..] == [];
    assert LatestFile(d, a[1..]) == [Some(d)];
    assert b[1..] == [FileReady(d)] && b[1..][1..] == [];
    assert EveryFile(b[1..]) == [Some(d)];
  }

  /** A single event, of either kind, sends nothing. */
  lemma OneEventSendsNothing(e: Event)
    ensures Run(Fresh(), [e]).sent == []
  {
    assert [e][1..] == [];
  }

  /** Nothing resets the flags: a second `makeSend` after the file is in calls `send` again with the same data. */
  lemma NoResendGuard(d: string)
    ensures Run(Fresh(), [FileReady(d), MakeSendCall, MakeSendCall]).sent == [Some(d), Some(d)]
  {
    var es := [FileReady(d), MakeSendCall, MakeSendCall];
    RunMatchesExpected(es);
    assert es[1..] == [MakeSendCall, MakeSendCall];
    assert es[1..][1..] == [MakeSendCall];
    assert es[1..][1..][1..] == [];
    assert LatestFile(d, es[1..][1..]) == [Some(d)];
  }

  /** Likewise, once the request waits, every later file event makes its own `send` call. */
  lemma EveryLateFileSends(d: string, d': string)
    ensures Run(Fresh(), [MakeSendCall, FileReady(d), FileReady(d')]).sent == [Some(d), Some(d')]
  {
    var es := [MakeSendCall, FileReady(d), FileReady(d')];
    RunMatchesExpected(es);
    assert es[1..] == [FileReady(d), FileReady(d')];
    assert es[1..][1..] == [FileReady(d')];
    assert es[1..][1..][1..] == [];
    assert EveryFile(es[1..][1..]) == [Some(d')];
  }

  /** No send ever happens on the first event: a fresh request sends at most once per later event. */
  lemma {:induction false} SendsAfterFirstEvent(es: seq<Event>)
    requires |es| > 0
    ensures |Run(Fresh(), es).sent| <= |es| - 1
  {
    RunMatchesExpected(es);
    match es[0]
    case MakeSendCall => EveryFileBound(es[1..]);
    case FileReady(d) => LatestFileBound(d, es[1..]);
  }

  lemma {:induction false} EveryFileBound(es: seq<Event>)
    ensures |EveryFile(es)| <= |es|
    decreases |es|
  {
    if |es| > 0 {
      EveryFileBound(es[1..]);
    }
  }

  lemma {:induction false} LatestFileBound(d: string, es: seq<Event>)
    ensures |LatestFile(d, es)| <= |es|
    decreases |es|
  {
    if |es| > 0 {
      match es[0]
      case FileReady(d') => LatestFileBound(d', es[1..]);
      case MakeSendCall => LatestFileBound(d, es[1..]);
    }
  }
}

=== FILE: urls.dfy ===
/**
 The URL builders of cloudinary.js: `urlRes` for downloading a resource from
 the content-delivery host and `urlApi` for the upload API. Both are plain
 concatenations, with no escaping of the segments. The parsers are their
 partial inverses: they recover the segments when the segments do not
 themselves contain the slashes that separate them.
 */
module Urls {
  import opened Results
  import opened Strings

  const ResHttpsHost := "https://cloudinary-a.akamaihd.net/"
  const ResHttpHost := "http://res.cloudinary.com/"
  const ApiHttpsHost := "https://api.cloudinary.com/v1_1/"
  const ApiHttpHost := "http://api.cloudinary.com/v1_1/"
  const UploadPath := "image/upload/"

  /** The resource host for the scheme chosen by `isHttps`. */
  function ResHost(isHttps: bool): string
  {
    if isHttps then ResHttpsHost else ResHttpHost
  }

  /** The API host for the scheme chosen by `isHttps`. */
  function ApiHost(isHttps: bool): string
  {
    if isHttps then ApiHttpsHost else ApiHttpHost
  }

  /** An optional path segment: the segment and a slash when defined, nothing otherwise. */
  function Segment(o: Option<string>): string
  {
    match o
    case Some(x) => x + "/"
    case None => ""
  }

  /** `urlRes(name, resourceParams, resourceName, isHttps)`. */
  function UrlRes(name: string, resourceParams: Option<string>, resourceName: string, isHttps: bool): (url: string)
    ensures ResHost(isHttps) + name + "/" + UploadPath <= url
    ensures |url| >= |resourceName| && url[|url| - |resourceName|..] == resourceName
  {
    var url := ResHost(isHttps) + name + "/" + UploadPath + Segment(resourceParams) + resourceName;
    assert url == (ResHost(isHttps) + name + "/" + UploadPath) + (Segment(resourceParams) + resourceName);
    url
  }

  /** `urlApi(name, resourceName, action, isHttps)`: the action segment comes before the resource. */
  function UrlApi(name: string, resourceName: Option<string>, action: Option<string>, isHttps: bool): (url: string)
    ensures ApiHost(isHttps) + name + "/" + UploadPath <= url
    ensures resourceName.Some? ==>
      |url| >= |resourceName.value| && url[|url| - |resourceName.value|..] == resourceName.value
  {
    var url := ApiHost(isHttps) + name + "/" + UploadPath + Segment(action) + resourceName.GetOr("");
    assert url == (ApiHost(isHttps) + name + "/" + UploadPath) + (Segment(action) + resourceName.GetOr(""));
    url
  }

  // ----- parsing -----

  /** The scheme flag and the rest of `url` after whichever of the two hosts it starts with. */
  function StripHost(url: string, httpsHost: string, httpHost: string): Option<(bool, string)>
  {
    if httpsHost <= url then Some((true, url[|httpsHost|..]))
    else if httpHost <= url then Some((false, url[|httpHost|..]))
    else None
  }

  /** The cloud name and what follows `<name>/image/upload/` in `rest`. */
  function SplitUploadPath(rest: string): Option<(string, string)>
  {
    match SplitAt(rest, '/')
    case None => None
    case Some((name, after)) =>
      if UploadPath <= after then Some((name, after[|UploadPath|..])) else None
  }

  lemma {:induction false} StripHostOf(httpsHost: string, httpHost: string, isHttps: bool, rest: string)
    requires |httpsHost| > 4 && |httpHost| > 4
    requires httpsHost[4] == 's' && httpHost[4] == ':'
    ensures StripHost((if isHttps then httpsHost else httpHost) + rest, httpsHost, httpHost) == Some((isHttps, rest))
  {
    var host := if isHttps then httpsHost else httpHost;
    var url := host + rest;
    assert url[..|host|] == host;
    assert url[|host|..] == rest;
    if !isHttps {
      assert url[4] == ':';
    }
  }

  lemma {:induction false} SplitUploadPathOf(name: string, tail: string)
    requires '/' !in name
    ensures SplitUploadPath(name + "/" + UploadPath + tail) == Some((name, tail))
  {
    var after := UploadPath + tail;
    assert name + "/" + UploadPath + tail == name + ['/'] + after;
    SplitAtUnique(name, after, '/');
    assert after[..|UploadPath|] == UploadPath;
    assert after[|UploadPath|..] == tail;
  }

  /**
   The scheme, cloud name, optional segment and last part of a URL on either
   of two hosts; the first slash after `upload/` ends the optional segment.
   */
  function ParseParts(url: string, httpsHost: string, httpHost: string): Option<(bool, string, Option<string>, string)>
  {
    match StripHost(url, httpsHost, httpHost)
    case None => None
    case Some((https, rest)) =>
      match SplitUploadPath(rest)
      case None => None
      case Some((name, tail)) =>
        match SplitAt(tail, '/')
        case None => Some((https, name, None, tail))
        case Some((p, last)) => Some((https, name, Some(p), last))
  }

  /** Any host pair whose fifth characters tell `https` from `http:` parses back what the builders put together. */
  lemma {:induction false} ParsePartsOf(httpsHost: string, httpHost: string, isHttps: bool, name: string, seg: Option<string>, last: string)
    requires |httpsHost| > 4 && |httpHost| > 4
    requires httpsHost[4] == 's' && httpHost[4] == ':'
    requires '/' !in name
    requires seg.Some? ==> '/' !in seg.value
    requires seg.None? ==> '/' !in last
    ensures ParseParts((if isHttps then httpsHost else httpHost) + name + "/" + UploadPath + Segment(seg) + last, httpsHost, httpHost)
      == Some((isHttps, name, seg, last))
  {
    var host := if isHttps then httpsHost else httpHost;
    var tail := Segment(seg) + last;
    var rest := name + "/" + UploadPath + tail;
    var url := host + name + "/" + UploadPath + Segment(seg) + last;
    assert url == host + rest;
    StripHostOf(httpsHost, httpHost, isHttps, rest);
    assert StripHost(url, httpsHost, httpHost) == Some((isHttps, rest));
    SplitUploadPathOf(name, tail);
    assert SplitUploadPath(rest) == Some((name, tail));
    if seg.Some? {
      assert tail == seg.value + ['/'] + last;
      SplitAtUnique(seg.value, last, '/');
      assert SplitAt(tail, '/') == Some((seg.value, last));
    } else {
      assert tail == last;
      assert SplitAt(tail, '/') == None;
    }
  }

  /** The parts of a resource URL. */
  datatype ResUrl = ResUrl(https: bool, name: string, params: Option<string>, resource: string)

  /** Reads a resource URL back into its parts. */
  function ParseResUrl(url: string): Option<ResUrl>
  {
    match ParseParts(url, ResHttpsHost, ResHttpHost)
    case None => None
    case Some((https, name, params, res)) => Some(ResUrl(https, name, params, res))
  }

  /**
   A resource URL gives back the scheme, cloud name, parameter segment and
   resource name it was built from, whenever the cloud name and the
   parameters hold no slash (and the resource holds none when there are no
   parameters, as then nothing tells the two apart).
   */
  lemma ResUrlRoundTrip(name: string, params: Option<string>, res: string, isHttps: bool)
    requires '/' !in name
    requires params.Some? ==> '/' !in params.value
    requires params.None? ==> '/' !in res
    ensures ParseResUrl(UrlRes(name, params, res, isHttps)) == Some(ResUrl(isHttps, name, params, res))
  {
    ParsePartsOf(ResHttpsHost, ResHttpHost, isHttps, name, params, res);
  }

  /** The parts of an API URL; an absent resource reads as the empty string. */
  datatype ApiUrl = ApiUrl(https: bool, name: string, action: Option<string>, resource: string)

  /** Reads an API URL back into its parts. */
  function ParseApiUrl(url: string): Option<ApiUrl>
  {
    match ParseParts(url, ApiHttpsHost, ApiHttpHost)
    case None => None
    case Some((https, name, action, res)) => Some(ApiUrl(https, name, action, res))
  }

  /**
   An API URL gives back the scheme, cloud name, action and resource it was
   built from, whenever the cloud name and action hold no slash (and the
   resource holds none when there is no action). An absent resource and an
   empty one build the same URL.
   */
  lemma ApiUrlRoundTrip(name: string, resourceName: Option<string>, action: Option<string>, isHttps: bool)
    requires '/' !in name
    requires action.Some? ==> '/' !in action.value
    requires action.None? ==> '/' !in resourceName.GetOr("")
    ensures ParseApiUrl(UrlApi(name, resourceName, action, isHttps))
      == Some(ApiUrl(isHttps, name, action, resourceName.GetOr("")))
  {
    ParsePartsOf(ApiHttpsHost, ApiHttpHost, isHttps, name, action, resourceName.GetOr(""));
  }

  /** Defined but empty parameters leave an empty segment: the URL holds `upload//`. */
  lemma EmptyParamsDoubleSlash(name: string, res: string, isHttps: bool)
    ensures UrlRes(name, Some(""), res, isHttps) == ResHost(isHttps) + name + "/image/upload//" + res
  {
    assert "" + "/" == "/";
    assert UploadPath + "/" == "image/upload//";
  }

  /** Undefined parameters leave no segment at all. */
  lemma NoParamsNoSegment(name: string, res: string, isHttps: bool)
    ensures UrlRes(name, None, res, isHttps) == ResHost(isHttps) + name + "/image/upload/" + res
  {
  }
}
